=== FILE: README.md ===
# Credential-lease lifecycle engine of vault-k8s-sample, in Dafny

The sample web API gets its database credentials from a secret service. Two leases are involved:

- the **authentication lease** of the service-account login. It is used to talk to the secret service.
- the **database-credential lease**. The secret service issues it, and it carries a user name and password for the document database.

Both leases expire and may or may not be renewable. This project models the logic that keeps both leases alive:

- the immutable lease value and its derived predicates (`leases.dfy`);
- the authentication-lease manager, which on each request does a first login, a self-renewal, a reuse or a fresh login (`vault_client_factory.dfy`);
- the credential-lease manager, which holds the lease and a cached database client. On each request it reuses the client, renews the lease in place, or issues new credentials and builds a new client. It can also revoke the lease, clear it, and reset the connection (`mongo_client_factory.dfy`);
- the connection string built from issued credentials, checked against a reader that parses it back (`connection_string.dfy`);
- runs of the public operations from the constructed state, and the invariant every reachable state keeps (`lifecycle.dfy`).

`remote.dfy` holds the shared vocabulary: the secret service's replies, the errors, the log of calls, and the shape of a step.

Every manager operation is a pure step function. It takes the state, the clock reading `now` and the secret service's replies (`Service`). It returns a `Step`, which holds:

- the state it leaves behind. This is given also when the operation throws, because the program assigns fields before a later call can fail;
- the outcome, `Returned(v)` or `Threw(e)`;
- the log of calls it made: login, self-renewal, credential issuance, lease renewal, revocation and client construction.

Time is a whole number of seconds. The framework's minimum date is `MinValue` = 0, and every clock reading (`Instant`) is later than it. The expiration buffer is a process-wide static in the program, set to 20 when the credential manager is constructed. Here it is a parameter: `buffer`, or `Config.buffer`.

Both managers write out the same four-way renewal decision inline: not requested, renew, keep or replace. The model defines it once, as `Leases.Decide`, and `Leases.DecideByTimeline` relates it to the lease's timeline.

The invariant `MongoClientFactory.Invariant` has two parts:

- `LeaseShape`: each lease is either its sentinel or a lease that was actually granted;
- `Coherent`: a cached client that sits next to a requested lease was built from that lease's user name and password.

Every operation preserves `LeaseShape`. Every operation preserves `Coherent` too, except when the database driver refuses to construct a client from the new connection string: the program has assigned the new lease by then, so the previous client stays cached next to it (`MongoClientFactory.StaleClientAfterFailedBuild`). The driver's answer is a reply in `Service`, like the secret service's. From the invariant follow the two facts about reachable states that matter most:

- a client request never reaches the renewal step's "lease not requested" error;
- as long as every client construction so far has succeeded, the client a request hands out carries the credentials of the lease it leaves behind. After a refused construction, a later request can hand out the previous client while the new lease is live and not yet due.

### Behaviour of the code as written

- `ResetConnectionAsync` tests `Requested` the opposite way to what its log messages say (MongoClientFactory.cs:109-118). When a lease is held, it only logs "Lease not requested yet". It clears the lease and issues new credentials only when no lease is held. In every reachable state that means the lease is the sentinel, so the clearing has nothing to clear. `MongoClientFactory.ResetConnection` models this guard literally, and `MongoClientFactory.ResetIgnoresHeldLease` states the consequence. Whether the reset was meant to act unconditionally or only when a lease is held cannot be told from the code, so no corrected version is offered.
- `ClearDbCredentials` resets only the lease; the cached client stays. The sentinel lease is always expired, so the next request issues new credentials (`MongoClientFactory.RevokeThenCreateReissues`, `MongoClientFactory.LeaseLossReissues`). But if the driver then refuses the new connection string, the kept client stays cached beside the new lease. A later request, while that lease is live and not yet due, hands out the client built from the revoked credentials (`MongoClientFactory.RevokedClientCanReturn`, via `MongoClientFactory.StaleClientAfterFailedBuild`). Had the client been cleared, that request would issue instead.
- On renewal the lease is replaced before the short-grant test. A grant shorter than 60 seconds still leaves the shortened lease in place if the following issuance fails (`MongoClientFactory.ShortRenewalReissues`).
- The self-renewal of the authentication lease takes the renewable flag from the renewal's reply. It does not keep the old flag.
- Every secret-service API exception raised by the lease renewal is absorbed, not only "lease not found". Only the lease is cleared, not the client. Any other exception propagates. A failure of the authentication step before the renewal also propagates, because that step sits outside the `try` (`MongoClientFactory.AuthFailureDuringRenewalPropagates`).
- The connection string puts the user name and password in verbatim. A reader recovers the parts only when the user name has no `:`, the password has no `@` and the server has no `/` (`ConnectionStrings.ParseBuild`, `ConnectionStrings.BuildParse`). Otherwise the parts cannot always be recovered: a colon moved between the user name and the password gives the same string (`ConnectionStrings.ColonMakesBuildAmbiguous`).

## Model

| member | source | states |
|---|---|---|
| Leases.BaseLease.Create | src/VaultApi/BaseLease.cs:16 | a lease granted at `now` has issue time `now` and the given duration and flag, so it is requested and expires at `now + duration`; at its issue instant it is expired exactly when the duration is negative, and renewable-and-live exactly when it is renewable with a non-negative duration |
| Leases.Lease.Create | src/VaultApi/BaseLease.cs:24-25 | a lease from issued credentials has the terms of a base lease granted at `now` with the issued duration and flag, and carries the issued lease id, user name and password unchanged |
| Leases.Lease.FromRenewal | src/VaultApi/BaseLease.cs:26-27 | a renewal keeps the user name and password, takes the lease id from the renewal reply, and has the terms of a base lease granted at `now` with the renewal's duration and flag |
| Leases.Decide | src/VaultApi/VaultClientFactory.cs:26-47 | the shared decision is "not requested" exactly for an unrequested lease; "renew" only for a lease that can renew and is past its threshold; "keep" only for a lease that can renew and is not past its threshold; "replace" exactly for a requested lease that is expired or not renewable |
| Leases.DecideByTimeline | src/VaultApi/BaseLease.cs:9-14 | the chain requested / should renew / can renew is the same as reading the timeline: not renewable or past expiration means replace, past the threshold `expiration - buffer` means renew, and anything earlier means keep |
| Leases.NonRenewableNeverRenews | src/VaultApi/BaseLease.cs:12-13 | a non-renewable lease can never renew and is never due, at any time |
| Leases.ShouldRenewImpliesCanRenew | src/VaultApi/BaseLease.cs:12-13 | a lease that is due for renewal can renew, so it is not expired |
| Leases.ExpiryIsStrict | src/VaultApi/BaseLease.cs:9-10 | at the expiration instant a lease is not expired; one second later it is |
| Leases.ShouldRenewWindow | src/VaultApi/BaseLease.cs:9-14 | a lease is due exactly when it is renewable and `now` lies in the half-open window from the threshold to the expiration |
| Leases.WorkedExample | src/VaultApi/BaseLease.cs:9-14 | a renewable 100-second lease with buffer 20 is kept at +75 and +80, due at +81 and +100, and expired and replaced at +101 |
| Leases.EmptyIsInert | src/VaultApi/BaseLease.cs:17 | the sentinel has duration 0, is not requested, and is expired at every clock reading, so it can neither renew nor be due |
| Leases.ConstructedLeasesAreRequested | src/VaultApi/BaseLease.cs:24-28 | the two credential constructors always give a requested lease, which is never the sentinel |
| Leases.ExpiredStaysExpired | src/VaultApi/BaseLease.cs:9-10 | a lease expired at one clock reading is expired, and cannot renew, at every later one |
| Leases.RequestedIsNotTheSentinelDate | src/VaultApi/BaseLease.cs:11 | a lease is requested exactly when its issue date differs from the sentinel's, and every lease granted at a clock reading is requested |
| Leases.CanRenewUntilExpiration | src/VaultApi/BaseLease.cs:13 | a lease can renew exactly when it is renewable and the clock has not passed its expiration |
| Leases.ThresholdBeforeExpiration | src/VaultApi/BaseLease.cs:14 | the renewal threshold lies exactly `buffer` seconds before expiration; with a buffer of zero or less a lease is never due |
| Leases.CredentialEmptyIsInert | src/VaultApi/BaseLease.cs:28 | the credential sentinel has the base sentinel's terms, an empty lease id, user name and password, and is expired and unable to renew at every clock reading |
| ConnectionStrings.Build | src/VaultApi/MongoClientFactory.cs:48 | the connection string starts with the `mongodb://` scheme, has the length of its four parts plus three separators, a colon right after the user name and a slash right before the database |
| ConnectionStrings.ParseBuild | src/VaultApi/MongoClientFactory.cs:48 | the string built from user, password, server and database reads back as exactly those parts when they hold no separator |
| ConnectionStrings.BuildParse | src/VaultApi/MongoClientFactory.cs:48 | every string the reader accepts is the built string of the parts it reads, and those parts hold no separator |
| ConnectionStrings.ColonMakesBuildAmbiguous | src/VaultApi/MongoClientFactory.cs:48 | without escaping, a colon moved between user name and password gives the same string |
| VaultClientFactory.Init | src/VaultApi/VaultClientFactory.cs:12-21 | the constructed manager holds the given handle and an unrequested lease |
| VaultClientFactory.PerformLogin | src/VaultApi/VaultClientFactory.cs:52-55 | a login makes exactly one call; on success it returns the handle, and the lease is the one granted at `now` with the login's duration and flag; on failure it throws and changes nothing |
| VaultClientFactory.GetVaultClient | src/VaultApi/VaultClientFactory.cs:24-56 | the handle is never replaced and is what every successful call returns; a successful call leaves a requested lease; a failing call changes nothing; at most one call, a login or a self-renewal, is made, and none exactly when the lease is requested, live and not yet due |
| VaultClientFactory.GetVaultClientKeepsValid | src/VaultApi/VaultClientFactory.cs:24-56 | the authentication lease stays either the sentinel or a granted lease |
| VaultClientFactory.FirstLogin | src/VaultApi/VaultClientFactory.cs:48-55 | with no lease requested, exactly one login is made and its grant at `now` becomes the lease |
| VaultClientFactory.SelfRenew | src/VaultApi/VaultClientFactory.cs:28-33 | with a lease that is due, exactly one self-renewal and no login; its grant at `now` replaces the lease, and a failed renewal propagates and changes nothing |
| VaultClientFactory.Reuse | src/VaultApi/VaultClientFactory.cs:35-38 | with a live lease not yet due, no call is made and nothing changes |
| VaultClientFactory.Relogin | src/VaultApi/VaultClientFactory.cs:40-55 | with an expired or non-renewable lease, exactly one login is made and its grant replaces the lease |
| VaultClientFactory.FreshGrantIsReused | src/VaultApi/VaultClientFactory.cs:28-38 | right after a grant, the next request at the same instant makes no call exactly when the grant is renewable, not negative and at least as long as the buffer, a self-renewal exactly when it is renewable, not negative and shorter than the buffer, and a login exactly when it is not renewable or negative |
| MongoClientFactory.Init | src/VaultApi/MongoClientFactory.cs:16-17 | the constructed manager has no client and unrequested leases, and satisfies the invariant |
| MongoClientFactory.ConnectionForReadsBack | src/VaultApi/MongoClientFactory.cs:48 | the connection string depends on a lease only through its user name and password, and reads back as those and the configured server and database when they hold no separator |
| MongoClientFactory.ClearDbCredentials | src/VaultApi/MongoClientFactory.cs:105 | the lease becomes unrequested and is expired at every clock reading; the client and the authentication state are untouched |
| MongoClientFactory.CreateNewMongoClient | src/VaultApi/MongoClientFactory.cs:40-49 | the authentication step runs first: its calls open the call log, and any issuance happens only after it succeeded with a requested authentication lease; at most one issuance and never a renewal or revocation; on success the driver accepted the string, the lease is the one built from the issued secret, and the cached, returned client's connection string is built from the issued user name and password; a secret-service failure leaves lease and client unchanged; a refused construction leaves the new lease and the previous client; the issuance is requested whenever the authentication step succeeds |
| MongoClientFactory.IssueAndBuild | src/VaultApi/MongoClientFactory.cs:45-48 | after authentication: exactly one issuance, first, and no other secret-service call; on success the driver accepted the string and the cached, returned client is built from the issued credentials; a failed issuance leaves lease and client; a refused construction leaves the new lease and the previous client |
| MongoClientFactory.RenewDbLeaseIfNeeded | src/VaultApi/MongoClientFactory.cs:51-93 | it throws "not requested" exactly for an unrequested lease; an expired or non-renewable lease is reported for replacement with no call and no change; the authentication step's calls open any log it makes; a renewal call happens only after that step succeeded, and a failure of that step propagates with lease and client unchanged and no renewal call; any throw leaves the lease; it never issues and never touches the client; when it reports the client usable, the lease is requested, live and has the same user name and password; once authentication returns, exactly one renewal of the lease's id for 60 seconds follows, and a granted renewal becomes the lease with "usable" exactly when it grants at least 60 seconds, an API error clears the lease and reports "not usable", and any other error propagates with the lease unchanged |
| MongoClientFactory.CreateClient | src/VaultApi/MongoClientFactory.cs:30-37 | at most one issuance; the returned client is the cached one and the lease is requested; without an issuance it is the previously cached client; with no client or an expired lease no renewal is attempted; it never throws "not requested" from a well-shaped state; a refused construction is the only way to lose coherence, and otherwise the returned client carries the lease's credentials |
| MongoClientFactory.Revoke | src/VaultApi/MongoClientFactory.cs:95-103 | it returns false exactly when the lease is expired, and then makes no call and changes nothing; a revocation call happens only after the authentication step succeeded, and a failure of that step propagates; once authentication returns, exactly one revocation of the lease's id follows, and the lease becomes the sentinel with true when it is answered and stays, with the error thrown, when it fails; on true, the last call revokes the lease's id and the lease is the sentinel; a failure leaves the lease; it never touches the client |
| MongoClientFactory.ResetConnection | src/VaultApi/MongoClientFactory.cs:107-119 | with a requested lease it does nothing; without one, on success it has issued exactly once and caches a client built from the new lease; it loses coherence only through a refused construction |
| MongoClientFactory.IssueWhenNoClientOrExpired | src/VaultApi/MongoClientFactory.cs:32-33 | with no client or an expired lease, no renewal is made, credentials are issued when authentication works, and the new client's connection string is built from the issued credentials |
| MongoClientFactory.RenewRefusesUnrequested | src/VaultApi/MongoClientFactory.cs:53-54 | the renewal step throws "not requested" for an unrequested lease, with no call and no change |
| MongoClientFactory.CreateNeverMeetsUnrequested | src/VaultApi/MongoClientFactory.cs:32-34 | in a well-shaped state an unrequested lease is expired, so a client request takes the issuing branch |
| MongoClientFactory.KeepWhenNotDue | src/VaultApi/MongoClientFactory.cs:80-84 | with a live lease not yet due, the cached client is returned with no call and no change |
| MongoClientFactory.ReplaceWhenExpiredOrNotRenewable | src/VaultApi/MongoClientFactory.cs:85-92 | a requested lease that is expired or not renewable is reported for replacement with no call and no change, and a client request then never renews and issues new credentials when authentication works |
| MongoClientFactory.LongRenewalKeepsClient | src/VaultApi/MongoClientFactory.cs:61-71 | once the authentication step returns, a renewal granting at least 60 seconds replaces the lease with the same credentials, returns the cached client and issues nothing |
| MongoClientFactory.ShortRenewalReissues | src/VaultApi/MongoClientFactory.cs:61-66 | once the authentication step returns, a renewal granting less than 60 seconds still replaces the lease and reports replacement; when authentication works, the request then issues new credentials; if issuing fails the shortened lease remains |
| MongoClientFactory.LeaseLossReissues | src/VaultApi/MongoClientFactory.cs:73-77 | once the authentication step returns, an API error on renewal clears the lease and is absorbed; when authentication works, an issuance follows; if issuing fails, any later request issues instead of renewing |
| MongoClientFactory.AuthFailureDuringRenewalPropagates | src/VaultApi/MongoClientFactory.cs:55-59 | when a due renewal's authentication step fails, a client request throws that step's error, with lease and client unchanged, and makes no renewal and no issuance |
| MongoClientFactory.OtherRenewalFailurePropagates | src/VaultApi/MongoClientFactory.cs:59-78 | once the authentication step returns, a non-API failure of the renewal propagates, with lease and client unchanged and nothing issued |
| MongoClientFactory.StaleClientAfterFailedBuild | src/VaultApi/MongoClientFactory.cs:45-48 | when the driver refuses the new connection string, the new lease is kept next to the previous client; while that lease is live and not yet due, a later request returns the previous client with no call, and the state is incoherent whenever the previous client's string differs from the new credentials' |
| MongoClientFactory.RevokeLiveLease | src/VaultApi/MongoClientFactory.cs:99-102 | once the authentication step returns and the revocation is answered, revoking a live lease returns true, ends with the revocation of its id, and leaves the sentinel lease and the same client |
| MongoClientFactory.RevokeThenCreateReissues | src/VaultApi/MongoClientFactory.cs:97-105 | after a successful revocation, the next request never renews, and when it succeeds it has issued new credentials |
| MongoClientFactory.RevokedClientCanReturn | src/VaultApi/MongoClientFactory.cs:99-105 | revocation keeps the cached client; if the next request's client construction is refused, a later request while the new lease is live and not yet due hands out the client built from the revoked credentials, with no call |
| MongoClientFactory.RenewedLeaseTimeline | src/VaultApi/MongoClientFactory.cs:12-13 | with the installed buffer of 20 seconds, a renewable renewal granting exactly the 60-second increment is kept for 40 seconds, due from the 41st second up to the 60th, and expired and replaced from the 61st |
| MongoClientFactory.ResetIgnoresHeldLease | src/VaultApi/MongoClientFactory.cs:109-118 | the reset as guarded never discards a held lease; when it acts, the lease is already the sentinel, so clearing changes nothing, and it issues new credentials |
| Lifecycle.Apply | src/VaultApi/IMongoClientFactory.cs:7-9 | each public operation keeps the leases' shape and the authentication handle, and keeps coherence whenever client construction succeeds |
| Lifecycle.RunKeepsInvariant | src/VaultApi/MongoClientFactory.cs:30-119 | any sequence of operations keeps the leases' shape and the authentication handle, and keeps coherence when every client construction in it succeeds |
| Lifecycle.ReachableStatesAreValid | src/VaultApi/MongoClientFactory.cs:16-27 | every state reachable from the constructed managers has well-shaped leases and the original handle, and satisfies the whole invariant when every client construction so far succeeded |
| Lifecycle.ReachableCreateIsSound | src/VaultApi/MongoClientFactory.cs:30-54 | from any reachable state, a client request never throws "not requested"; when every earlier client construction succeeded, the client it returns is cached and carries the credentials of the lease it leaves |

## Left out

- Clock reads: the program reads the clock again at each property access and each constructor. The model reads it once per operation. Time is in whole seconds, not ticks.
- Date and integer limits: date arithmetic that leaves the framework's range, and 32-bit overflow of `duration - buffer`, are not modelled. Integers are unbounded.
- Replies to repeated requests: the secret service's replies are given per kind of request for a whole operation. A request made twice in one operation (two self-renewals, say) gets the same reply both times.
- Client construction failure: the driver is a foreign call. The model records only whether it accepted the connection string (`Service.buildClient`), not why it refused one.
- Constructor plumbing: the reading of the environment variable, the service-account token file and the configuration null checks.
- The unused `expirationBufferInSeconds` constant of the authentication manager: the shared static, set by the credential manager's constructor, is what both layers read. Before that constructor runs it is 0. The buffer is a parameter here.
- Logging and date formatting (Helpers.cs): strings, floating point and culture, with no effect on state.
- Concurrency: the program has no synchronisation. Its interleavings are not modelled, nor any coalescing of concurrent refreshes, which the program does not do.
- HTTP routing, dependency wiring, the static client stub and the plain data types: they contain no decision logic.

=== FILE: connection_string.dfy ===
/**
  The database connection string built from issued credentials, and a reader for
  it that recovers the four parts, so that the builder can be checked against an
  inverse.
 */
module ConnectionStrings {
  import opened Remote

  const Scheme: string := "mongodb://"

  datatype Endpoint = Endpoint(username: string, password: string, server: string, database: string)

  /** The credentials are inserted verbatim, without any escaping. */
  function Build(username: string, password: string, server: string, database: string): (cs: string)
    ensures |cs| == |Scheme| + |username| + |password| + |server| + |database| + 3
    ensures cs[..|Scheme|] == Scheme
    ensures cs[|Scheme| + |username|] == ':' && cs[|cs| - |database| - 1] == '/'
  {
    Scheme + username + ":" + password + "@" + server + "/" + database
  }

  /** The parts a reader can recover unambiguously. */
  predicate Unambiguous(e: Endpoint) {
    ':' !in e.username && '@' !in e.password && '/' !in e.server
  }

  /** The first position of `c` in `s`, or `|s|` when there is none. */
  function IndexOf(s: string, c: char): (i: nat)
    ensures i <= |s|
    ensures i < |s| ==> s[i] == c
    ensures forall j :: 0 <= j < i ==> s[j] != c
  {
    if s == [] then 0
    else if s[0] == c then 0
    else 1 + IndexOf(s[1..], c)
  }

  /** Splits `s` around the first `c`. */
  function SplitAt(s: string, c: char): (r: Option<(string, string)>)
    ensures r.None? <==> c !in s
    ensures r.Some? ==> s == r.value.0 + [c] + r.value.1 && c !in r.value.0
  {
    var i := IndexOf(s, c);
    if i == |s| then None
    else
      assert s == s[..i] + [c] + s[i + 1..];
      Some((s[..i], s[i + 1..]))
  }

  /** Reads a connection string as `scheme user ':' password '@' server '/' database`. */
  function Parse(cs: string): Option<Endpoint> {
    if |cs| < |Scheme| || cs[..|Scheme|] != Scheme then None
    else ParseAfterScheme(cs[|Scheme|..])
  }

  /** Reads `user ':' password '@' server '/' database`. */
  function ParseAfterScheme(s: string): Option<Endpoint> {
    match SplitAt(s, ':')
    case None => None
    case Some((user, afterUser)) =>
      match ParseAfterUser(afterUser)
      case None => None
      case Some((pass, server, database)) => Some(Endpoint(user, pass, server, database))
  }

  /** Reads `password '@' server '/' database`. */
  function ParseAfterUser(s: string): Option<(string, string, string)> {
    match SplitAt(s, '@')
    case None => None
    case Some((pass, afterPass)) =>
      match SplitAt(afterPass, '/')
      case None => None
      case Some((server, database)) => Some((pass, server, database))
  }

  lemma SplitAtJoin(a: string, c: char, b: string)
    requires c !in a
    ensures SplitAt(a + [c] + b, c) == Some((a, b))
  {
    var s := a + [c] + b;
    assert s[|a|] == c;
    var i := IndexOf(s, c);
    assert i == |a|;
    assert s[..i] == a;
    assert s[i + 1..] == b;
  }

  lemma ParseAfterUserJoin(pass: string, server: string, database: string)
    requires '@' !in pass && '/' !in server
    ensures ParseAfterUser(pass + "@" + (server + "/" + database)) == Some((pass, server, database))
  {
    SplitAtJoin(pass, '@', server + "/" + database);
    SplitAtJoin(server, '/', database);
  }

  /** Reading a built string gives back its parts. */
  lemma ParseBuild(e: Endpoint)
    requires Unambiguous(e)
    ensures Parse(Build(e.username, e.password, e.server, e.database)) == Some(e)
  {
    var cs := Build(e.username, e.password, e.server, e.database);
    var afterUser := e.password + "@" + (e.server + "/" + e.database);
    assert cs == Scheme + (e.username + ":" + afterUser);
    assert cs[..|Scheme|] == Scheme;
    assert cs[|Scheme|..] == e.username + ":" + afterUser;
    SplitAtJoin(e.username, ':', afterUser);
    ParseAfterUserJoin(e.password, e.server, e.database);
  }

  /** Whatever the reader accepts is exactly the string built from what it read. */
  lemma BuildParse(cs: string)
    ensures Parse(cs).Some? ==>
      var e := Parse(cs).value;
      Unambiguous(e) && Build(e.username, e.password, e.server, e.database) == cs
  {
    if Parse(cs).Some? {
      var e := Parse(cs).value;
      var rest := cs[|Scheme|..];
      SchemePrefix(cs);
      ParseAfterSchemeShape(rest);
      BuildNested(e.username, e.password, e.server, e.database);
    }
  }

  /** An accepted string is the scheme followed by what the rest of the reader accepts. */
  lemma SchemePrefix(cs: string)
    requires Parse(cs).Some?
    ensures |Scheme| <= |cs| && cs == Scheme + cs[|Scheme|..]
    ensures ParseAfterScheme(cs[|Scheme|..]) == Parse(cs)
  {
    assert cs[..|Scheme|] == Scheme;
    assert cs == cs[..|Scheme|] + cs[|Scheme|..];
  }

  /** What the reader accepts after the scheme is its parts joined by their separators. */
  lemma ParseAfterSchemeShape(s: string)
    requires ParseAfterScheme(s).Some?
    ensures var e := ParseAfterScheme(s).value;
      && Unambiguous(e)
      && s == e.username + [':'] + (e.password + ['@'] + (e.server + ['/'] + e.database))
  {
    ParseAfterUserShape(SplitAt(s, ':').value.1);
  }

  /** What the reader accepts after the user name is its parts joined by their separators. */
  lemma ParseAfterUserShape(s: string)
    requires ParseAfterUser(s).Some?
    ensures var (pass, server, database) := ParseAfterUser(s).value;
      && '@' !in pass && '/' !in server
      && s == pass + ['@'] + (server + ['/'] + database)
  {
  }

  lemma BuildNested(username: string, password: string, server: string, database: string)
    ensures Build(username, password, server, database)
         == Scheme + (username + [':'] + (password + ['@'] + (server + ['/'] + database)))
  {
  }

  /**
    Without the restriction the builder is not injective: a colon can move
    between the user name and the password without changing the string.
   */
  lemma ColonMakesBuildAmbiguous(server: string, database: string)
    ensures Build("a", "b:c", server, database) == Build("a:b", "c", server, database)
  {
  }
}

=== FILE: leases.dfy ===
/**
  The lease value model: an immutable grant of a duration, a renewable flag and an
  issue time, and its credential-carrying variant.

  Time is a whole number of seconds. `MinValue` stands for the framework's minimum
  date and marks a lease that was never requested; every clock reading is later.
  The expiration buffer, a process-wide setting in the program, is passed in.
 */
module Leases {

  /** The minimum date: the issue time of a lease that was never requested. */
  const MinValue: int := 0

  /** A reading of the wall clock. */
  type Instant = t: int | MinValue < t witness 1

  /** What the secret service answers to a login or a self-renewal. */
  datatype AuthInfo = AuthInfo(durationSeconds: int, renewable: bool)

  /** What the secret service answers when it issues database credentials. */
  datatype IssuedSecret = IssuedSecret(
    leaseId: string, durationSeconds: int, renewable: bool,
    username: string, password: string)

  /** What the secret service answers when it renews a credential lease. */
  datatype RenewedSecret = RenewedSecret(leaseId: string, durationSeconds: int, renewable: bool)

  datatype BaseLease = BaseLease(durationSeconds: int, renewable: bool, leaseDate: int) {

    function Expiration(): int {
      leaseDate + durationSeconds
    }

    /** Strictly after the expiration instant. */
    predicate Expired(now: Instant) {
      now > Expiration()
    }

    predicate Requested() {
      leaseDate != MinValue
    }

    /** The instant after which the lease is due for renewal. */
    function RenewalThreshold(buffer: int): int {
      leaseDate + (durationSeconds - buffer)
    }

    predicate CanRenew(now: Instant) {
      renewable && !Expired(now)
    }

    predicate ShouldRenew(now: Instant, buffer: int) {
      CanRenew(now) && now > RenewalThreshold(buffer)
    }

    /** A lease granted at `now`. */
    static function Create(durationSeconds: int, renewable: bool, now: Instant): (l: BaseLease)
      ensures l.leaseDate == now && l.durationSeconds == durationSeconds && l.renewable == renewable
      ensures l.Requested()
      ensures l.Expiration() == now + durationSeconds
      ensures l.Expired(now) <==> durationSeconds < 0
      ensures l.CanRenew(now) <==> renewable && 0 <= durationSeconds
    {
      BaseLease(durationSeconds, renewable, now)
    }

    /** The sentinel for "no lease". */
    static const Empty: BaseLease := BaseLease(0, false, MinValue)
  }

  datatype Lease = Lease(base: BaseLease, leaseId: string, username: string, password: string) {

    /** A credential lease built from freshly issued credentials at `now`. */
    static function Create(secret: IssuedSecret, now: Instant): (l: Lease)
      ensures l.base == BaseLease.Create(secret.durationSeconds, secret.renewable, now)
      ensures l.base.Requested()
      ensures l.base.Expiration() == now + secret.durationSeconds
      ensures l.base.renewable == secret.renewable
      ensures l.leaseId == secret.leaseId
      ensures l.username == secret.username && l.password == secret.password
    {
      Lease(BaseLease.Create(secret.durationSeconds, secret.renewable, now),
            secret.leaseId, secret.username, secret.password)
    }

    /** The same credentials under the terms of a renewal granted at `now`. */
    function FromRenewal(secret: RenewedSecret, now: Instant): (l: Lease)
      ensures l.username == username && l.password == password
      ensures l.leaseId == secret.leaseId
      ensures l.base == BaseLease.Create(secret.durationSeconds, secret.renewable, now)
      ensures l.base.Requested()
      ensures l.base.Expiration() == now + secret.durationSeconds
      ensures l.base.renewable == secret.renewable
    {
      Lease(BaseLease.Create(secret.durationSeconds, secret.renewable, now),
            secret.leaseId, username, password)
    }

    /** The sentinel for "no credential lease". */
    static const Empty: Lease := Lease(BaseLease.Empty, "", "", "")
  }

  /**
    The renewal decision both managers take on their lease, in the order the
    program tests it.
   */
  datatype Decision = NotRequested | Renew | Keep | Replace

  function Decide(l: BaseLease, now: Instant, buffer: int): (d: Decision)
    ensures d == NotRequested <==> !l.Requested()
    ensures d == Renew ==> l.CanRenew(now) && now > l.RenewalThreshold(buffer)
    ensures d == Keep ==> l.CanRenew(now) && now <= l.RenewalThreshold(buffer)
    ensures d == Replace ==> l.Expired(now) || !l.renewable
    ensures l.Requested() && !l.CanRenew(now) ==> d == Replace
  {
    if !l.Requested() then NotRequested
    else if l.ShouldRenew(now, buffer) then Renew
    else if l.CanRenew(now) then Keep
    else Replace
  }

  /** The decision read off the lease's timeline instead of the predicate chain. */
  lemma DecideByTimeline(l: BaseLease, now: Instant, buffer: int)
    ensures Decide(l, now, buffer) ==
      if !l.Requested() then NotRequested
      else if !l.renewable || now > l.leaseDate + l.durationSeconds then Replace
      else if now > l.leaseDate + l.durationSeconds - buffer then Renew
      else Keep
  {
  }

  lemma NonRenewableNeverRenews(l: BaseLease, now: Instant, buffer: int)
    requires !l.renewable
    ensures !l.CanRenew(now) && !l.ShouldRenew(now, buffer)
    ensures Decide(l, now, buffer) in {NotRequested, Replace}
  {
  }

  lemma ShouldRenewImpliesCanRenew(l: BaseLease, now: Instant, buffer: int)
    ensures l.ShouldRenew(now, buffer) ==> l.CanRenew(now) && !l.Expired(now)
  {
  }

  /** Expiry is strict: at the expiration instant the lease is still live. */
  lemma ExpiryIsStrict(l: BaseLease, now: Instant)
    ensures now == l.leaseDate + l.durationSeconds ==> !l.Expired(now)
    ensures now == l.leaseDate + l.durationSeconds + 1 ==> l.Expired(now)
  {
  }

  /** A lease is due exactly inside the half-open window (threshold, expiration]. */
  lemma ShouldRenewWindow(l: BaseLease, now: Instant, buffer: int)
    ensures l.ShouldRenew(now, buffer) <==>
      l.renewable
      && now <= l.leaseDate + l.durationSeconds
      && now > l.leaseDate + l.durationSeconds - buffer
  {
  }

  /** Duration 100 and buffer 20, issued at t0. */
  lemma WorkedExample(t0: Instant)
    ensures var l := BaseLease.Create(100, true, t0);
      && Decide(l, t0 + 75, 20) == Keep
      && Decide(l, t0 + 80, 20) == Keep
      && Decide(l, t0 + 81, 20) == Renew
      && Decide(l, t0 + 100, 20) == Renew
      && !l.Expired(t0 + 100)
      && l.Expired(t0 + 101)
      && Decide(l, t0 + 101, 20) == Replace
  {
  }

  lemma EmptyIsInert(now: Instant, buffer: int)
    ensures BaseLease.Empty.durationSeconds == 0 && !BaseLease.Empty.renewable
    ensures !BaseLease.Empty.Requested() && !Lease.Empty.base.Requested()
    ensures BaseLease.Empty.Expired(now) && Lease.Empty.base.Expired(now)
    ensures !BaseLease.Empty.CanRenew(now) && !BaseLease.Empty.ShouldRenew(now, buffer)
  {
  }

  /** Only the sentinel is unrequested among the leases the constructors make. */
  lemma ConstructedLeasesAreRequested(secret: IssuedSecret, renewal: RenewedSecret, l: Lease, now: Instant)
    ensures Lease.Create(secret, now).base.Requested()
    ensures l.FromRenewal(renewal, now).base.Requested()
    ensures Lease.Create(secret, now) != Lease.Empty
  {
  }

  /** Once expired, a lease stays expired. */
  lemma ExpiredStaysExpired(l: BaseLease, earlier: Instant, later: Instant)
    requires earlier <= later && l.Expired(earlier)
    ensures l.Expired(later) && !l.CanRenew(later)
  {
  }

  /** The requested mark is exactly an issue date other than the sentinel's. */
  lemma RequestedIsNotTheSentinelDate(l: BaseLease, now: Instant)
    ensures l.Requested() <==> l.leaseDate != BaseLease.Empty.leaseDate
    ensures BaseLease.Create(l.durationSeconds, l.renewable, now).Requested()
  {
  }

  /**
    A lease can renew exactly up to and including its expiration instant, when it
    is renewable at all.
   */
  lemma CanRenewUntilExpiration(l: BaseLease, now: Instant)
    ensures l.CanRenew(now) <==> l.renewable && now <= l.Expiration()
  {
  }

  /**
    The threshold lies `buffer` seconds before expiration; with a buffer of zero
    or less a lease is never due, so it is only ever replaced.
   */
  lemma ThresholdBeforeExpiration(l: BaseLease, buffer: int, now: Instant)
    ensures l.Expiration() - l.RenewalThreshold(buffer) == buffer
    ensures buffer <= 0 ==> !l.ShouldRenew(now, buffer)
  {
  }

  /** The credential sentinel carries no credentials and the base sentinel's terms. */
  lemma CredentialEmptyIsInert(now: Instant)
    ensures Lease.Empty.base == BaseLease.Empty
    ensures Lease.Empty.leaseId == "" && Lease.Empty.username == "" && Lease.Empty.password == ""
    ensures Lease.Empty.base.Expired(now) && !Lease.Empty.base.CanRenew(now)
  {
  }
}

=== FILE: lifecycle.dfy ===
/**
  Runs of the public operations of the credential-lease manager, one after the
  other from the constructed state, and what holds in every state a run reaches.
 */
module Lifecycle {
  import opened Leases
  import opened Remote
  import opened MongoClientFactory
  import VaultClientFactory

  /** The public operations a caller can invoke. */
  datatype Request = CreateClientRequest | RevokeRequest | ResetRequest

  /** One invocation: the operation, the clock reading and the service's replies. */
  datatype Event = Event(request: Request, now: Instant, service: Service)

  /** Every client construction the events attempt succeeds. */
  predicate ClientsBuild(events: seq<Event>) {
    forall i :: 0 <= i < |events| ==> events[i].service.buildClient.Answer?
  }

  function Apply(f: Factory, cfg: Config, e: Event): (g: Factory)
    ensures LeaseShape(f) ==> LeaseShape(g)
    ensures Coherent(f, cfg) && e.service.buildClient.Answer? ==> Coherent(g, cfg)
    ensures g.auth.client == f.auth.client
  {
    match e.request
    case CreateClientRequest => CreateClient(f, cfg, e.now, e.service).state
    case RevokeRequest => Revoke(f, cfg, e.now, e.service).state
    case ResetRequest => ResetConnection(f, cfg, e.now, e.service).state
  }

  /** The state after the events, in order. */
  function Run(f: Factory, cfg: Config, events: seq<Event>): Factory
    decreases |events|
  {
    if events == [] then f else Run(Apply(f, cfg, events[0]), cfg, events[1..])
  }

  /**
    Both leases keep their shape along any run; the cached client stays built
    from the current credentials as long as every client construction succeeds.
   */
  lemma {:induction false} RunKeepsInvariant(f: Factory, cfg: Config, events: seq<Event>)
    requires LeaseShape(f)
    ensures LeaseShape(Run(f, cfg, events))
    ensures Coherent(f, cfg) && ClientsBuild(events) ==> Coherent(Run(f, cfg, events), cfg)
    ensures Run(f, cfg, events).auth.client == f.auth.client
    decreases |events|
  {
    if events != [] {
      assert ClientsBuild(events) ==> ClientsBuild(events[1..]) by {
        assert forall i :: 1 <= i < |events| ==> events[1..][i - 1] == events[i];
      }
      RunKeepsInvariant(Apply(f, cfg, events[0]), cfg, events[1..]);
    }
  }

  /** Every state reachable from the constructed managers keeps the invariant. */
  lemma ReachableStatesAreValid(vault: VaultClientFactory.VaultClient, cfg: Config, events: seq<Event>)
    ensures var f := Run(Init(vault), cfg, events);
      && LeaseShape(f)
      && (ClientsBuild(events) ==> Invariant(f, cfg))
      && f.auth.client == vault
  {
    RunKeepsInvariant(Init(vault), cfg, events);
  }

  /**
    In every reachable state a client request never ends in the renewal step's
    "not requested" error; and, as long as every client construction so far has
    succeeded, the client it hands out was built from the credentials of the
    lease it leaves behind.
   */
  lemma ReachableCreateIsSound(
    vault: VaultClientFactory.VaultClient, cfg: Config, events: seq<Event>, now: Instant, service: Service)
    ensures var r := CreateClient(Run(Init(vault), cfg, events), cfg, now, service);
      && r.outcome != Threw(LeaseNotRequested)
      && (ClientsBuild(events) && r.outcome.Returned? ==>
            r.outcome.value.connectionString == ConnectionFor(r.state.lease, cfg)
            && r.state.client == Some(r.outcome.value))
  {
    ReachableStatesAreValid(vault, cfg, events);
  }
}

=== FILE: mongo_client_factory.dfy ===
/**
  The credential-lease manager: it holds the database-credential lease and the
  cached database client, and decides per request between reusing the client,
  renewing the lease in place and issuing new credentials. Every call to the
  secret service first asks the authentication layer for its handle.
 */
module MongoClientFactory {
  import opened Leases
  import opened Remote
  import opened ConnectionStrings
  import VaultClientFactory

  /** The renewal increment asked for, and the shortest grant still accepted. */
  const RenewalSeconds: int := 60

  /** The expiration buffer the program installs for every lease. */
  const ExpirationBufferSeconds: int := 20

  datatype MongoClient = MongoClient(connectionString: string)

  datatype Config = Config(dbServer: string, dbName: string, mongoRoleName: string, buffer: int)

  datatype Factory = Factory(auth: VaultClientFactory.AuthState, lease: Lease, client: Option<MongoClient>)

  /** The connection string for a lease's credentials. */
  function ConnectionFor(l: Lease, cfg: Config): string {
    Build(l.username, l.password, cfg.dbServer, cfg.dbName)
  }

  /**
    The connection string depends on the lease only through its credentials, and
    reads back as those credentials and the configured server and database when
    the parts are unambiguous.
   */
  lemma ConnectionForReadsBack(l: Lease, m: Lease, cfg: Config)
    ensures l.username == m.username && l.password == m.password ==> ConnectionFor(l, cfg) == ConnectionFor(m, cfg)
    ensures var e := Endpoint(l.username, l.password, cfg.dbServer, cfg.dbName);
      Unambiguous(e) ==> Parse(ConnectionFor(l, cfg)) == Some(e)
  {
    var e := Endpoint(l.username, l.password, cfg.dbServer, cfg.dbName);
    if Unambiguous(e) {
      ParseBuild(e);
    }
  }

  /** The managers as constructed: nothing requested, no client. */
  function Init(vault: VaultClientFactory.VaultClient): (f: Factory)
    ensures forall cfg :: Invariant(f, cfg)
    ensures f.client.None? && !f.lease.base.Requested() && !f.auth.lease.Requested()
  {
    Factory(VaultClientFactory.Init(vault), Lease.Empty, None)
  }

  /** Both leases are either their sentinel or one the service granted. */
  predicate LeaseShape(f: Factory) {
    VaultClientFactory.Valid(f.auth) && (f.lease.base.Requested() || f.lease == Lease.Empty)
  }

  /** A cached client next to a requested lease was built from that lease's credentials. */
  predicate Coherent(f: Factory, cfg: Config) {
    f.client.Some? && f.lease.base.Requested() ==> f.client.value.connectionString == ConnectionFor(f.lease, cfg)
  }

  predicate Invariant(f: Factory, cfg: Config) {
    LeaseShape(f) && Coherent(f, cfg)
  }

  /** Forgets the credential lease; the cached client stays. */
  function ClearDbCredentials(f: Factory): (g: Factory)
    ensures !g.lease.base.Requested()
    ensures forall now: Instant :: g.lease.base.Expired(now)
    ensures g.auth == f.auth && g.client == f.client
    ensures LeaseShape(f) ==> LeaseShape(g)
    ensures forall cfg :: Coherent(g, cfg)
  {
    f.(lease := Lease.Empty)
  }

  /**
    Issues new credentials and builds a client from them. The lease is assigned
    before the client is constructed, so a driver that refuses the connection
    string leaves the new lease next to the previous client.
   */
  function CreateNewMongoClient(f: Factory, cfg: Config, now: Instant, service: Service): (r: Step<Factory, MongoClient>)
    ensures r.state.auth == VaultClientFactory.GetVaultClient(f.auth, now, cfg.buffer, service).state
    ensures VaultClientFactory.GetVaultClient(f.auth, now, cfg.buffer, service).calls <= r.calls
    ensures r.state.auth.client == f.auth.client
    ensures Issuances(r.calls) <= 1
    ensures forall c :: c in r.calls ==> !c.RenewLease? && !c.RevokeLease?
    ensures forall c :: c in r.calls && c.IssueCredentials? ==>
      VaultClientFactory.GetVaultClient(f.auth, now, cfg.buffer, service).outcome.Returned?
      && r.state.auth.lease.Requested()
    ensures r.outcome.Returned? ==>
      && service.credentials.Answer?
      && service.buildClient.Answer?
      && r.state.lease == Lease.Create(service.credentials.value, now)
      && r.state.client == Some(r.outcome.value)
      && r.outcome.value.connectionString ==
           Build(service.credentials.value.username, service.credentials.value.password, cfg.dbServer, cfg.dbName)
      && Issuances(r.calls) == 1
    ensures r.outcome.Threw? ==> r.state.client == f.client
    ensures r.outcome.Threw? && r.outcome.error != ConnectionError ==>
      r.state.lease == f.lease && r.outcome.error.ServiceError?
    ensures r.outcome == Threw(ConnectionError) ==>
      && service.credentials.Answer?
      && service.buildClient.Fail?
      && r.state.lease == Lease.Create(service.credentials.value, now)
      && Issuances(r.calls) == 1
    ensures VaultClientFactory.GetVaultClient(f.auth, now, cfg.buffer, service).outcome.Returned? ==>
      IssueCredentials(cfg.mongoRoleName) in r.calls
    ensures LeaseShape(f) ==> LeaseShape(r.state)
    ensures Coherent(f, cfg) && r.outcome != Threw(ConnectionError) ==> Coherent(r.state, cfg)
  {
    var auth := VaultClientFactory.GetVaultClient(f.auth, now, cfg.buffer, service);
    var f1 := f.(auth := auth.state);
    IssuancesZero(auth.calls);
    if auth.outcome.Threw? then Step(f1, Threw(auth.outcome.error), auth.calls)
    else
      var issued := IssueAndBuild(f1, cfg, now, service);
      IssuancesAppend(auth.calls, issued.calls);
      Step(issued.state, issued.outcome, auth.calls + issued.calls)
  }

  /**
    The part of `CreateNewMongoClient` after the authentication step: one
    issuance, the new lease, then the client construction.
   */
  function IssueAndBuild(f: Factory, cfg: Config, now: Instant, service: Service): (r: Step<Factory, MongoClient>)
    ensures r.state.auth == f.auth
    ensures Issuances(r.calls) == 1 && r.calls[0] == IssueCredentials(cfg.mongoRoleName)
    ensures forall c :: c in r.calls ==> !c.RenewLease? && !c.RevokeLease? && !c.Login? && !c.RenewSelf?
    ensures r.outcome.Returned? ==>
      && service.credentials.Answer?
      && service.buildClient.Answer?
      && r.state.lease == Lease.Create(service.credentials.value, now)
      && r.state.client == Some(r.outcome.value)
      && r.outcome.value.connectionString ==
           Build(service.credentials.value.username, service.credentials.value.password, cfg.dbServer, cfg.dbName)
    ensures r.outcome.Threw? ==> r.state.client == f.client
    ensures r.outcome.Threw? && r.outcome.error != ConnectionError ==>
      r.state.lease == f.lease && r.outcome.error.ServiceError?
    ensures r.outcome == Threw(ConnectionError) ==>
      && service.credentials.Answer?
      && service.buildClient.Fail?
      && r.state.lease == Lease.Create(service.credentials.value, now)
    ensures LeaseShape(f) ==> LeaseShape(r.state)
    ensures Coherent(f, cfg) && r.outcome != Threw(ConnectionError) ==> Coherent(r.state, cfg)
  {
    var issue := [IssueCredentials(cfg.mongoRoleName)];
    match service.credentials
    case Fail(fault) => Step(f, Threw(ServiceError(fault)), issue)
    case Answer(secret) =>
      var lease := Lease.Create(secret, now);
      var connectionString := ConnectionFor(lease, cfg);
      var calls := issue + [BuildClient(connectionString)];
      assert Issuances(calls) == 1 by {
        IssuancesAppend(issue, [BuildClient(connectionString)]);
      }
      match service.buildClient
      case Fail(_) => Step(f.(lease := lease), Threw(ConnectionError), calls)
      case Answer(_) =>
        var client := MongoClient(connectionString);
        Step(f.(lease := lease, client := Some(client)), Returned(client), calls)
  }

  /**
    Renews the credential lease when it is due. Reports whether the cached
    client may still be used.
   */
  function RenewDbLeaseIfNeeded(f: Factory, cfg: Config, now: Instant, service: Service): (r: Step<Factory, bool>)
    ensures r.state.client == f.client && r.state.auth.client == f.auth.client
    ensures r.outcome == Threw(LeaseNotRequested) <==> !f.lease.base.Requested()
    ensures f.lease.base.Requested() && !f.lease.base.CanRenew(now) ==> r == Step(f, Returned(false), [])
    ensures Issuances(r.calls) == 0
    ensures r.calls == [] ==> r.state == f
    ensures r.outcome.Threw? ==> r.state.lease == f.lease
    ensures var auth := VaultClientFactory.GetVaultClient(f.auth, now, cfg.buffer, service);
      Decide(f.lease.base, now, cfg.buffer) == Renew && auth.outcome.Threw? ==>
        r == Step(f.(auth := auth.state), Threw(auth.outcome.error), auth.calls)
    ensures var auth := VaultClientFactory.GetVaultClient(f.auth, now, cfg.buffer, service);
      Decide(f.lease.base, now, cfg.buffer) == Renew && auth.outcome.Returned? ==>
        && r.calls == auth.calls + [RenewLease(f.lease.leaseId, RenewalSeconds)]
        && r.state.auth == auth.state
        && match service.renewLease
           case Answer(secret) =>
             r.state.lease == f.lease.FromRenewal(secret, now)
             && r.outcome == Returned(secret.durationSeconds >= RenewalSeconds)
           case Fail(VaultApiError) => r.state.lease == Lease.Empty && r.outcome == Returned(false)
           case Fail(OtherError) => r.state.lease == f.lease && r.outcome == Threw(ServiceError(OtherError))
    ensures r.calls != [] ==> VaultClientFactory.GetVaultClient(f.auth, now, cfg.buffer, service).calls <= r.calls
    ensures forall c :: c in r.calls && c.RenewLease? ==>
      VaultClientFactory.GetVaultClient(f.auth, now, cfg.buffer, service).outcome.Returned?
      && r.state.auth.lease.Requested()
    ensures r.outcome == Returned(true) ==>
      && r.state.lease.base.Requested()
      && !r.state.lease.base.Expired(now)
      && r.state.lease.username == f.lease.username
      && r.state.lease.password == f.lease.password
    ensures LeaseShape(f) ==> LeaseShape(r.state)
    ensures Coherent(f, cfg) ==> Coherent(r.state, cfg)
  {
    match Decide(f.lease.base, now, cfg.buffer)
    case NotRequested => Step(f, Threw(LeaseNotRequested), [])
    case Keep => Step(f, Returned(true), [])
    case Replace => Step(f, Returned(false), [])
    case Renew =>
      var auth := VaultClientFactory.GetVaultClient(f.auth, now, cfg.buffer, service);
      var f1 := f.(auth := auth.state);
      IssuancesZero(auth.calls);
      if auth.outcome.Threw? then Step(f1, Threw(auth.outcome.error), auth.calls)
      else
        var calls := auth.calls + [RenewLease(f.lease.leaseId, RenewalSeconds)];
        IssuancesAppend(auth.calls, [RenewLease(f.lease.leaseId, RenewalSeconds)]);
        match service.renewLease
        case Fail(VaultApiError) => Step(ClearDbCredentials(f1), Returned(false), calls)
        case Fail(OtherError) => Step(f1, Threw(ServiceError(OtherError)), calls)
        case Answer(secret) =>
          var renewed := f.lease.FromRenewal(secret, now);
          Step(f1.(lease := renewed), Returned(renewed.base.durationSeconds >= RenewalSeconds), calls)
  }

  /** Hands out a database client backed by live credentials. */
  function CreateClient(f: Factory, cfg: Config, now: Instant, service: Service): (r: Step<Factory, MongoClient>)
    ensures r.state.auth.client == f.auth.client
    ensures Issuances(r.calls) <= 1
    ensures r.outcome.Returned? ==> r.state.client == Some(r.outcome.value) && r.state.lease.base.Requested()
    ensures r.outcome.Returned? && Issuances(r.calls) == 0 ==> f.client == Some(r.outcome.value)
    ensures (f.client.None? || f.lease.base.Expired(now)) ==> forall c :: c in r.calls ==> !c.RenewLease?
    ensures LeaseShape(f) ==> LeaseShape(r.state) && r.outcome != Threw(LeaseNotRequested)
    ensures r.outcome == Threw(ConnectionError) ==> service.buildClient.Fail?
    ensures Coherent(f, cfg) && r.outcome != Threw(ConnectionError) ==> Coherent(r.state, cfg)
    ensures Coherent(f, cfg) && r.outcome.Returned? ==>
      r.outcome.value.connectionString == ConnectionFor(r.state.lease, cfg)
  {
    if f.client.None? || f.lease.base.Expired(now) then CreateNewMongoClient(f, cfg, now, service)
    else
      var renewal := RenewDbLeaseIfNeeded(f, cfg, now, service);
      if renewal.outcome.Threw? then Step(renewal.state, Threw(renewal.outcome.error), renewal.calls)
      else if renewal.outcome.value then Step(renewal.state, Returned(renewal.state.client.value), renewal.calls)
      else
        var reissue := CreateNewMongoClient(renewal.state, cfg, now, service);
        IssuancesAppend(renewal.calls, reissue.calls);
        Step(reissue.state, reissue.outcome, renewal.calls + reissue.calls)
  }

  /** Revokes the credential lease unless it has already expired. */
  function Revoke(f: Factory, cfg: Config, now: Instant, service: Service): (r: Step<Factory, bool>)
    ensures f.lease.base.Expired(now) ==> r == Step(f, Returned(false), [])
    ensures r.outcome == Returned(false) <==> f.lease.base.Expired(now)
    ensures r.outcome == Returned(true) ==>
      r.state.lease == Lease.Empty && |r.calls| > 0 && r.calls[|r.calls| - 1] == RevokeLease(f.lease.leaseId)
    ensures r.outcome.Threw? ==> r.state.lease == f.lease && r.outcome.error.ServiceError?
    ensures forall c :: c in r.calls && c.RevokeLease? ==>
      VaultClientFactory.GetVaultClient(f.auth, now, cfg.buffer, service).outcome.Returned?
      && r.state.auth.lease.Requested()
    ensures var auth := VaultClientFactory.GetVaultClient(f.auth, now, cfg.buffer, service);
      !f.lease.base.Expired(now) && auth.outcome.Threw? ==>
        r == Step(f.(auth := auth.state), Threw(auth.outcome.error), auth.calls)
    ensures var auth := VaultClientFactory.GetVaultClient(f.auth, now, cfg.buffer, service);
      !f.lease.base.Expired(now) && auth.outcome.Returned? ==>
        && r.calls == auth.calls + [RevokeLease(f.lease.leaseId)]
        && r.state.auth == auth.state
        && match service.revokeLease
           case Answer(_) => r.state.lease == Lease.Empty && r.outcome == Returned(true)
           case Fail(fault) => r.state.lease == f.lease && r.outcome == Threw(ServiceError(fault))
    ensures r.state.client == f.client && r.state.auth.client == f.auth.client
    ensures Issuances(r.calls) == 0
    ensures LeaseShape(f) ==> LeaseShape(r.state)
    ensures Coherent(f, cfg) ==> Coherent(r.state, cfg)
  {
    if f.lease.base.Expired(now) then Step(f, Returned(false), [])
    else
      var auth := VaultClientFactory.GetVaultClient(f.auth, now, cfg.buffer, service);
      var f1 := f.(auth := auth.state);
      IssuancesZero(auth.calls);
      if auth.outcome.Threw? then Step(f1, Threw(auth.outcome.error), auth.calls)
      else
        var calls := auth.calls + [RevokeLease(f.lease.leaseId)];
        IssuancesAppend(auth.calls, [RevokeLease(f.lease.leaseId)]);
        match service.revokeLease
        case Fail(fault) => Step(f1, Threw(ServiceError(fault)), calls)
        case Answer(_) => Step(ClearDbCredentials(f1), Returned(true), calls)
  }

  /**
    The operator-triggered reset, with its guard as the program has it: it acts
    only when no lease is held.
   */
  function ResetConnection(f: Factory, cfg: Config, now: Instant, service: Service): (r: Step<Factory, ()>)
    ensures f.lease.base.Requested() ==> r == Step(f, Returned(()), [])
    ensures !f.lease.base.Requested() && r.outcome.Returned? ==>
      && Issuances(r.calls) == 1
      && r.state.lease.base.Requested()
      && r.state.client.Some?
      && r.state.client.value.connectionString == ConnectionFor(r.state.lease, cfg)
    ensures r.state.auth.client == f.auth.client
    ensures LeaseShape(f) ==> LeaseShape(r.state)
    ensures r.outcome == Threw(ConnectionError) ==> service.buildClient.Fail?
    ensures Coherent(f, cfg) && r.outcome != Threw(ConnectionError) ==> Coherent(r.state, cfg)
  {
    if f.lease.base.Requested() then Step(f, Returned(()), [])
    else
      var reissue := CreateNewMongoClient(ClearDbCredentials(f), cfg, now, service);
      Step(reissue.state, if reissue.outcome.Returned? then Returned(()) else Threw(reissue.outcome.error), reissue.calls)
  }

  /** The secret service answers the authentication layer, whatever it asks. */
  predicate AuthAnswers(service: Service) {
    service.login.Answer? && service.renewSelf.Answer?
  }

  lemma AuthAnswersMeansHandle(s: VaultClientFactory.AuthState, now: Instant, buffer: int, service: Service)
    requires AuthAnswers(service)
    ensures VaultClientFactory.GetVaultClient(s, now, buffer, service).outcome.Returned?
  {
  }

  /** No cached client, or an expired lease: new credentials, never a renewal. */
  lemma IssueWhenNoClientOrExpired(f: Factory, cfg: Config, now: Instant, service: Service)
    requires f.client.None? || f.lease.base.Expired(now)
    ensures var r := CreateClient(f, cfg, now, service);
      && (forall c :: c in r.calls ==> !c.RenewLease?)
      && (AuthAnswers(service) ==> IssueCredentials(cfg.mongoRoleName) in r.calls)
      && (r.outcome.Returned? ==>
            && r.state.lease == Lease.Create(service.credentials.value, now)
            && r.outcome.value.connectionString == Build(
                 service.credentials.value.username, service.credentials.value.password, cfg.dbServer, cfg.dbName))
  {
  }

  /** The renewal step refuses a lease that was never requested. */
  lemma RenewRefusesUnrequested(f: Factory, cfg: Config, now: Instant, service: Service)
    requires !f.lease.base.Requested()
    ensures RenewDbLeaseIfNeeded(f, cfg, now, service) == Step(f, Threw(LeaseNotRequested), [])
  {
  }

  /**
    Yet a client request never meets that refusal: an unrequested lease is the
    sentinel, which has expired, so the request takes the issuing branch.
   */
  lemma CreateNeverMeetsUnrequested(f: Factory, cfg: Config, now: Instant, service: Service)
    requires LeaseShape(f) && !f.lease.base.Requested()
    ensures f.lease.base.Expired(now)
    ensures CreateClient(f, cfg, now, service) == CreateNewMongoClient(f, cfg, now, service)
  {
  }

  /** Live and not yet due: the cached client, no call, nothing changes. */
  lemma KeepWhenNotDue(f: Factory, cfg: Config, now: Instant, service: Service)
    requires f.client.Some? && f.lease.base.Requested()
    requires f.lease.base.CanRenew(now) && !f.lease.base.ShouldRenew(now, cfg.buffer)
    ensures CreateClient(f, cfg, now, service) == Step(f, Returned(f.client.value), [])
  {
  }

  /** Expired or not renewable: replaced without any renewal call. */
  lemma ReplaceWhenExpiredOrNotRenewable(f: Factory, cfg: Config, now: Instant, service: Service)
    requires f.lease.base.Requested() && !f.lease.base.CanRenew(now)
    ensures RenewDbLeaseIfNeeded(f, cfg, now, service) == Step(f, Returned(false), [])
    ensures var r := CreateClient(f, cfg, now, service);
      && (forall c :: c in r.calls ==> !c.RenewLease?)
      && (AuthAnswers(service) ==> IssueCredentials(cfg.mongoRoleName) in r.calls)
  {
  }

  /** A renewal granting at least the increment keeps the client and the credentials. */
  lemma LongRenewalKeepsClient(f: Factory, cfg: Config, now: Instant, service: Service)
    requires f.client.Some? && f.lease.base.Requested() && f.lease.base.ShouldRenew(now, cfg.buffer)
    requires VaultClientFactory.GetVaultClient(f.auth, now, cfg.buffer, service).outcome.Returned?
    requires service.renewLease.Answer? && service.renewLease.value.durationSeconds >= RenewalSeconds
    ensures var r := CreateClient(f, cfg, now, service);
      && r.outcome == Returned(f.client.value)
      && r.state.lease == f.lease.FromRenewal(service.renewLease.value, now)
      && r.state.lease.username == f.lease.username && r.state.lease.password == f.lease.password
      && RenewLease(f.lease.leaseId, RenewalSeconds) in r.calls
      && Issuances(r.calls) == 0
  {
  }

  /**
    A renewal granting less than the increment still replaces the lease, and the
    request then issues new credentials; should issuing fail, the shortened
    lease is what remains.
   */
  lemma ShortRenewalReissues(f: Factory, cfg: Config, now: Instant, service: Service)
    requires f.client.Some? && f.lease.base.Requested() && f.lease.base.ShouldRenew(now, cfg.buffer)
    requires VaultClientFactory.GetVaultClient(f.auth, now, cfg.buffer, service).outcome.Returned?
    requires service.renewLease.Answer? && service.renewLease.value.durationSeconds < RenewalSeconds
    ensures var renewal := RenewDbLeaseIfNeeded(f, cfg, now, service);
      && renewal.outcome == Returned(false)
      && renewal.state.lease == f.lease.FromRenewal(service.renewLease.value, now)
    ensures var r := CreateClient(f, cfg, now, service);
      && RenewLease(f.lease.leaseId, RenewalSeconds) in r.calls
      && (AuthAnswers(service) ==> IssueCredentials(cfg.mongoRoleName) in r.calls)
      && (r.outcome.Threw? && r.outcome.error.ServiceError? ==>
            r.state.lease == f.lease.FromRenewal(service.renewLease.value, now))
  {
    var renewal := RenewDbLeaseIfNeeded(f, cfg, now, service);
    var reissue := CreateNewMongoClient(renewal.state, cfg, now, service);
    assert CreateClient(f, cfg, now, service).calls == renewal.calls + reissue.calls;
  }

  /**
    The secret service's API error on renewal means the lease was lost: the lease
    is cleared, the error is absorbed and new credentials are issued; if issuing
    fails, every later request issues rather than renews.
   */
  lemma LeaseLossReissues(f: Factory, cfg: Config, now: Instant, service: Service, later: Instant, laterService: Service)
    requires f.client.Some? && f.lease.base.Requested() && f.lease.base.ShouldRenew(now, cfg.buffer)
    requires VaultClientFactory.GetVaultClient(f.auth, now, cfg.buffer, service).outcome.Returned?
    requires service.renewLease == Fail(VaultApiError)
    ensures var renewal := RenewDbLeaseIfNeeded(f, cfg, now, service);
      renewal.outcome == Returned(false) && renewal.state.lease == Lease.Empty
    ensures var r := CreateClient(f, cfg, now, service);
      && (AuthAnswers(service) ==> IssueCredentials(cfg.mongoRoleName) in r.calls)
      && (r.outcome.Threw? && r.outcome.error.ServiceError? ==>
            && r.state.lease == Lease.Empty
            && forall c :: c in CreateClient(r.state, cfg, later, laterService).calls ==> !c.RenewLease?)
  {
    var renewal := RenewDbLeaseIfNeeded(f, cfg, now, service);
    assert renewal.outcome == Returned(false);
    var reissue := CreateNewMongoClient(renewal.state, cfg, now, service);
    if AuthAnswers(service) {
      AuthAnswersMeansHandle(renewal.state.auth, now, cfg.buffer, service);
    }
    var r := CreateClient(f, cfg, now, service);
    assert r == Step(reissue.state, reissue.outcome, renewal.calls + reissue.calls);
    if r.outcome.Threw? && r.outcome.error.ServiceError? {
      assert r.state.lease == Lease.Empty;
      IssueWhenNoClientOrExpired(r.state, cfg, later, laterService);
    }
  }

  /**
    A driver that refuses the new connection string leaves the previous client
    cached next to the new lease. While that lease is live and not yet due,
    later requests hand out the previous client without any call, although it
    was built from the earlier credentials.
   */
  lemma StaleClientAfterFailedBuild(
    f: Factory, cfg: Config, now: Instant, service: Service, later: Instant, laterService: Service)
    requires f.client.Some? && f.lease.base.Expired(now)
    requires AuthAnswers(service) && service.credentials.Answer? && service.buildClient.Fail?
    requires var secret := service.credentials.value;
      && secret.renewable
      && now <= later <= now + secret.durationSeconds
      && later <= now + secret.durationSeconds - cfg.buffer
    ensures var r := CreateClient(f, cfg, now, service);
      && r.outcome == Threw(ConnectionError)
      && r.state.lease == Lease.Create(service.credentials.value, now)
      && r.state.client == f.client
      && CreateClient(r.state, cfg, later, laterService) == Step(r.state, Returned(f.client.value), [])
      && (f.client.value.connectionString != ConnectionFor(r.state.lease, cfg) ==> !Coherent(r.state, cfg))
  {
    var r := CreateClient(f, cfg, now, service);
    AuthAnswersMeansHandle(f.auth, now, cfg.buffer, service);
    assert r.outcome == Threw(ConnectionError);
    KeepWhenNotDue(r.state, cfg, later, laterService);
  }

  /**
    A failure of the authentication step before a due renewal is not absorbed:
    it propagates, with no renewal call and the lease and client unchanged.
   */
  lemma AuthFailureDuringRenewalPropagates(f: Factory, cfg: Config, now: Instant, service: Service)
    requires f.client.Some? && f.lease.base.Requested() && f.lease.base.ShouldRenew(now, cfg.buffer)
    requires VaultClientFactory.GetVaultClient(f.auth, now, cfg.buffer, service).outcome.Threw?
    ensures var r := CreateClient(f, cfg, now, service);
      && r.outcome == Threw(VaultClientFactory.GetVaultClient(f.auth, now, cfg.buffer, service).outcome.error)
      && r.outcome.error.ServiceError?
      && r.state.lease == f.lease && r.state.client == f.client
      && forall c :: c in r.calls ==> !c.RenewLease? && !c.IssueCredentials?
  {
  }

  /** Any other failure of the renewal call propagates and leaves the lease alone. */
  lemma OtherRenewalFailurePropagates(f: Factory, cfg: Config, now: Instant, service: Service)
    requires f.client.Some? && f.lease.base.Requested() && f.lease.base.ShouldRenew(now, cfg.buffer)
    requires VaultClientFactory.GetVaultClient(f.auth, now, cfg.buffer, service).outcome.Returned?
    requires service.renewLease == Fail(OtherError)
    ensures var r := CreateClient(f, cfg, now, service);
      && r.outcome == Threw(ServiceError(OtherError))
      && r.state.lease == f.lease && r.state.client == f.client
      && Issuances(r.calls) == 0
  {
  }

  /** Revoking a live lease: one revocation of its id, then the sentinel; the client stays. */
  lemma RevokeLiveLease(f: Factory, cfg: Config, now: Instant, service: Service)
    requires !f.lease.base.Expired(now)
    requires VaultClientFactory.GetVaultClient(f.auth, now, cfg.buffer, service).outcome.Returned?
    requires service.revokeLease.Answer?
    ensures var r := Revoke(f, cfg, now, service);
      && r.outcome == Returned(true)
      && r.state.lease == Lease.Empty
      && r.state.client == f.client
      && r.calls[|r.calls| - 1] == RevokeLease(f.lease.leaseId)
  {
  }

  /** After a revocation the cached client is never handed out again without new credentials. */
  lemma RevokeThenCreateReissues(f: Factory, cfg: Config, now: Instant, service: Service, later: Instant, laterService: Service)
    requires Revoke(f, cfg, now, service).outcome == Returned(true)
    ensures var g := Revoke(f, cfg, now, service).state;
      var r := CreateClient(g, cfg, later, laterService);
      && (forall c :: c in r.calls ==> !c.RenewLease?)
      && (r.outcome.Returned? ==> Issuances(r.calls) == 1)
  {
  }

  /**
    Revocation keeps the cached client. If the next request's client
    construction is refused, a later request, while the new lease is live and
    not yet due, hands out the client built from the revoked credentials.
   */
  lemma RevokedClientCanReturn(
    f: Factory, cfg: Config, now: Instant, service: Service,
    t1: Instant, s1: Service, t2: Instant, s2: Service)
    requires f.client.Some? && Revoke(f, cfg, now, service).outcome == Returned(true)
    requires AuthAnswers(s1) && s1.credentials.Answer? && s1.buildClient.Fail?
    requires var secret := s1.credentials.value;
      && secret.renewable
      && t1 <= t2 <= t1 + secret.durationSeconds
      && t2 <= t1 + secret.durationSeconds - cfg.buffer
    ensures var g := Revoke(f, cfg, now, service).state;
      var r1 := CreateClient(g, cfg, t1, s1);
      && g.client == f.client
      && r1.outcome == Threw(ConnectionError)
      && CreateClient(r1.state, cfg, t2, s2) == Step(r1.state, Returned(f.client.value), [])
  {
    var g := Revoke(f, cfg, now, service).state;
    assert g.lease == Lease.Empty && g.client == f.client;
    StaleClientAfterFailedBuild(g, cfg, t1, s1, t2, s2);
  }

  /**
    With the buffer the program installs, a renewal granting exactly the
    increment is kept for 40 seconds, due from the 41st second up to its
    expiration, and expired from the 61st.
   */
  lemma RenewedLeaseTimeline(l: Lease, secret: RenewedSecret, now: Instant)
    requires secret.renewable && secret.durationSeconds == RenewalSeconds
    ensures var renewed := l.FromRenewal(secret, now).base;
      && Decide(renewed, now + 40, ExpirationBufferSeconds) == Keep
      && Decide(renewed, now + 41, ExpirationBufferSeconds) == Renew
      && Decide(renewed, now + 60, ExpirationBufferSeconds) == Renew
      && Decide(renewed, now + 61, ExpirationBufferSeconds) == Replace
      && renewed.Expired(now + 61) && !renewed.Expired(now + 60)
  {
  }

  /**
    The reset as the program guards it never discards a lease that is held: with
    a lease it does nothing, and without one there is nothing to clear.
   */
  lemma ResetIgnoresHeldLease(f: Factory, cfg: Config, now: Instant, service: Service)
    requires LeaseShape(f)
    ensures f.lease != Lease.Empty ==> ResetConnection(f, cfg, now, service) == Step(f, Returned(()), [])
    ensures f.lease == Lease.Empty ==> ClearDbCredentials(f) == f
    ensures !f.lease.base.Requested() && AuthAnswers(service) ==>
      IssueCredentials(cfg.mongoRoleName) in ResetConnection(f, cfg, now, service).calls
  {
  }
}

=== FILE: remote.dfy ===
/**
  The vocabulary the managers share with the secret service: its replies, the
  errors a step can end in, the log of calls a step performs, and the shape of a
  step's result.
 */
module Remote {
  import opened Leases

  datatype Option<T> = None | Some(value: T)

  /**
    How a remote call can fail: with the secret-service library's own API
    exception, or with anything else (transport, timeout).
   */
  datatype Fault = VaultApiError | OtherError

  datatype Reply<T> = Answer(value: T) | Fail(fault: Fault)

  /**
    The replies the secret service gives, during one step, to each kind of
    request, and whether the database driver accepts the connection string it
    is given and constructs a client. A request made twice within one step gets
    the same reply.
   */
  datatype Service = Service(
    login: Reply<AuthInfo>,
    renewSelf: Reply<AuthInfo>,
    credentials: Reply<IssuedSecret>,
    renewLease: Reply<RenewedSecret>,
    revokeLease: Reply<()>,
    buildClient: Reply<()>)

  /** One call to a collaborator, as it appears in a step's log; a client construction is logged once attempted. */
  datatype Call =
    | Login
    | RenewSelf
    | IssueCredentials(roleName: string)
    | RenewLease(leaseId: string, incrementSeconds: int)
    | RevokeLease(leaseId: string)
    | BuildClient(connectionString: string)

  /** A failure reported by the secret service, the renewal step's refusal, or the driver's refusal. */
  datatype Error = ServiceError(fault: Fault) | LeaseNotRequested | ConnectionError

  /** How an operation ends: it returns a value or throws. */
  datatype Outcome<T> = Returned(value: T) | Threw(error: Error)

  /**
    One operation: the state it leaves behind (also when it throws, since the
    program assigns fields before later calls fail), its outcome and its calls.
   */
  datatype Step<S, T> = Step(state: S, outcome: Outcome<T>, calls: seq<Call>)

  /** The number of credential issuances in a log. */
  function Issuances(calls: seq<Call>): nat {
    if calls == [] then 0
    else (if calls[0].IssueCredentials? then 1 else 0) + Issuances(calls[1..])
  }

  lemma {:induction false} IssuancesAppend(a: seq<Call>, b: seq<Call>)
    ensures Issuances(a + b) == Issuances(a) + Issuances(b)
  {
    if a == [] {
      assert a + b == b;
    } else {
      assert (a + b)[1..] == a[1..] + b;
      IssuancesAppend(a[1..], b);
    }
  }

  /** A log without an issuance call counts none, and conversely. */
  lemma {:induction false} IssuancesZero(calls: seq<Call>)
    ensures Issuances(calls) == 0 <==> forall i :: 0 <= i < |calls| ==> !calls[i].IssueCredentials?
  {
    if calls != [] {
      IssuancesZero(calls[1..]);
      assert forall i :: 1 <= i < |calls| ==> calls[i] == calls[1..][i - 1];
    }
  }
}

=== FILE: vault_client_factory.dfy ===
/**
  The authentication-lease manager: it owns one connection handle to the secret
  service, made once, and the lease of the login behind it, and on every request
  decides between a first login, a self-renewal, reuse and a fresh login.
 */
module VaultClientFactory {
  import opened Leases
  import opened Remote

  /** The connection handle to the secret service. */
  datatype VaultClient = VaultClient(id: nat)

  datatype AuthState = AuthState(lease: BaseLease, client: VaultClient)

  /** The manager as constructed: no login yet. */
  function Init(client: VaultClient): (s: AuthState)
    ensures !s.lease.Requested() && s.client == client
  {
    AuthState(BaseLease.Empty, client)
  }

  /** Logs in and keeps the lease of the login. */
  function PerformLogin(s: AuthState, now: Instant, service: Service): (r: Step<AuthState, VaultClient>)
    ensures r.calls == [Login] && r.state.client == s.client
    ensures r.outcome.Returned? <==> service.login.Answer?
    ensures r.outcome.Returned? ==>
      r.outcome.value == s.client
      && r.state.lease == BaseLease.Create(service.login.value.durationSeconds, service.login.value.renewable, now)
    ensures r.outcome.Threw? ==> r.state == s && r.outcome.error == ServiceError(service.login.fault)
  {
    match service.login
    case Fail(fault) => Step(s, Threw(ServiceError(fault)), [Login])
    case Answer(info) =>
      Step(s.(lease := BaseLease.Create(info.durationSeconds, info.renewable, now)), Returned(s.client), [Login])
  }

  /** Hands out the connection handle after making sure the login behind it is live. */
  function GetVaultClient(s: AuthState, now: Instant, buffer: int, service: Service): (r: Step<AuthState, VaultClient>)
    ensures r.state.client == s.client
    ensures r.outcome.Returned? ==> r.outcome.value == s.client && r.state.lease.Requested()
    ensures r.outcome.Threw? ==> r.state == s && r.outcome.error.ServiceError?
    ensures |r.calls| <= 1
    ensures forall c :: c in r.calls ==> c == Login || c == RenewSelf
    ensures r.calls == [] <==>
      s.lease.Requested() && s.lease.CanRenew(now) && !s.lease.ShouldRenew(now, buffer)
    ensures r.calls == [] ==> r.state == s
    ensures r.state.lease != s.lease ==> r.state.lease.leaseDate == now
  {
    match Decide(s.lease, now, buffer)
    case Keep => Step(s, Returned(s.client), [])
    case Renew =>
      (match service.renewSelf
       case Fail(fault) => Step(s, Threw(ServiceError(fault)), [RenewSelf])
       case Answer(info) =>
         Step(s.(lease := BaseLease.Create(info.durationSeconds, info.renewable, now)), Returned(s.client), [RenewSelf]))
    case _ => PerformLogin(s, now, service)
  }

  /** The lease is either the sentinel or one a login or renewal granted. */
  predicate Valid(s: AuthState) {
    s.lease.Requested() || s.lease == BaseLease.Empty
  }

  lemma GetVaultClientKeepsValid(s: AuthState, now: Instant, buffer: int, service: Service)
    requires Valid(s)
    ensures Valid(GetVaultClient(s, now, buffer, service).state)
  {
  }

  /** Never requested: exactly one login, whose answer becomes the lease. */
  lemma FirstLogin(s: AuthState, now: Instant, buffer: int, service: Service)
    requires !s.lease.Requested()
    ensures var r := GetVaultClient(s, now, buffer, service);
      && r.calls == [Login]
      && (service.login.Answer? ==>
            r.state.lease == BaseLease.Create(service.login.value.durationSeconds, service.login.value.renewable, now))
  {
  }

  /** Due for renewal: exactly one self-renewal and no login. */
  lemma SelfRenew(s: AuthState, now: Instant, buffer: int, service: Service)
    requires s.lease.Requested() && s.lease.ShouldRenew(now, buffer)
    ensures var r := GetVaultClient(s, now, buffer, service);
      && r.calls == [RenewSelf]
      && (service.renewSelf.Answer? ==>
            r.outcome == Returned(s.client)
            && r.state.lease == BaseLease.Create(service.renewSelf.value.durationSeconds, service.renewSelf.value.renewable, now))
      && (service.renewSelf.Fail? ==> r.state == s && r.outcome.Threw?)
  {
  }

  /** Live and not yet due: no call, nothing changes. */
  lemma Reuse(s: AuthState, now: Instant, buffer: int, service: Service)
    requires s.lease.Requested() && s.lease.CanRenew(now) && !s.lease.ShouldRenew(now, buffer)
    ensures GetVaultClient(s, now, buffer, service) == Step(s, Returned(s.client), [])
  {
  }

  /** Expired or not renewable: a fresh login replaces the lease. */
  lemma Relogin(s: AuthState, now: Instant, buffer: int, service: Service)
    requires s.lease.Requested() && (s.lease.Expired(now) || !s.lease.renewable)
    ensures var r := GetVaultClient(s, now, buffer, service);
      && r.calls == [Login]
      && (service.login.Answer? ==>
            r.state.lease == BaseLease.Create(service.login.value.durationSeconds, service.login.value.renewable, now))
  {
  }

  /**
    Right after a grant, the next request at the same instant: no call when the
    grant is renewable, not negative and at least as long as the buffer, a
    self-renewal when it is renewable, not negative and shorter than the buffer,
    and a fresh login when it is not renewable or already over.
   */
  lemma FreshGrantIsReused(client: VaultClient, info: AuthInfo, now: Instant, buffer: int, service: Service)
    ensures var s := AuthState(BaseLease.Create(info.durationSeconds, info.renewable, now), client);
      var calls := GetVaultClient(s, now, buffer, service).calls;
      && (calls == [] <==> info.renewable && info.durationSeconds >= 0 && info.durationSeconds >= buffer)
      && (calls == [RenewSelf] <==> info.renewable && 0 <= info.durationSeconds < buffer)
      && (calls == [Login] <==> !info.renewable || info.durationSeconds < 0)
  {
  }
}
